=== FILE: README.md ===
# Travel-expense map: interaction model

A Dafny model of the interaction logic of `script_csv.js`, a D3 script that
draws travel-expense records as circles on a world map. Users filter the
records by category through a legend. They can also "explode" a nest, that is,
several records at the same coordinates, so that its circles are fanned out
and can be told apart. The script handles a desktop and a touch device
differently:

- on a desktop, a click toggles a legend row or a nest, and hovering a row
  highlights its category;
- on a touch device, a first tap previews and a second tap on the same target
  confirms.

The model has these parts:

- `wrappers.dfy` (`Wrappers`): `Option`, where `None` stands for `null`.
- `selection.dfy` (`Selection`): the two selection disciplines the script uses
  for both categories and nests. One is the click toggle (`Toggle`). The other
  is the preview-then-confirm tap (`Tap`).
- `expenses.dfy` (`Expenses`): the records and their nests. Numbers are
  `Finite(real)` or `NaN`, and `StrictEquals` is JavaScript's `===`. A nest is
  the set of records whose `lat` and `lon` both `===` the clicked record's,
  listed in data order (`NestOf`). The key `${lat}_${lon}` is modelled as the
  pair `NestKey(lat, lon)`.
- `interaction.dfy` (`Interaction`): the four state variables `activeCategory`,
  `previewCategory`, `explodedNest` and `previewedNest`. Each handler is a pure
  transition on them.
- `styling.dfy` (`Styling`): `display` and `opacity` as pure functions of the
  state. This covers `updateCircles`, the legend hover rule and the legend
  mouse-out rule. Opacities are integer percentages.
- `chart.dfy` (`Chart`): the drawing these handlers change. For each point this
  is its display, its opacity and its placement: either at its projected
  coordinates, or in one slot of its nest's spread. The map's opacity is also
  part of it. The module has the input events, runs of events, and the
  invariant every configuration reachable through these events keeps
  (`Coherent`); a window resize is not one of these events (see below).

Behaviour of the code that the model follows, and that a reader of the
script may not expect:

- The category tests are JavaScript truthiness (`if (activeCategory)`), so
  an empty category name behaves like no category (`Truthy`).
- A record with a NaN coordinate is not `===` to itself, so its nest is
  empty and clicking it does nothing (`NaNRecordHasEmptyNest`).
- A desktop legend click reaches the legend row's handler first. It then
  bubbles to the drawing's background handler, because its target is a
  `rect` or `text`, not a `circle`. So besides toggling the category it
  collapses any exploded nest, and every point ends at opacity 0.7
  (`ClickLegend`). On a touch device the legend uses `touchstart` with
  `preventDefault`, so no click follows.
- In the background handler, the opacity transition that `updateCircles`
  starts is replaced by the later one that sets 0.7. The final opacity is
  therefore 0.7 everywhere (`ClickBackground`).
- The hover rule returns `undefined` for points in neither the active nor the
  hovered category. This removes the inline style and is modelled as
  `Unstyled`. It happens exactly for the points the hover hides
  (`HoverUnstyledOnlyWhenHidden`).
- The handler that explodes a nest never brings the nest's points to
  opacity 1: a later transition on the same points cancels that change (see
  "## Findings"). The model uses the intended opacity.
- Exploding a second nest does not collapse the first one
  (`SecondExplodeKeepsFirstSpread`).
- On a touch device nothing ever clears the active category
  (`TouchActiveSticks`).

Three more facts about the code:

- A background click keeps `activeCategory` (script_csv.js:316-322); only the
  previews and the exploded nest are cleared (`Background`).
- `updateCircles` filters on a truthy `previewCategory` when no category is
  active (script_csv.js:67-71), not only on the active category.
- On a touch device the active and the preview category can both be set at
  once; the active one then decides (`PreviewIgnoredUnderActive`).

## Model

| member | source | states |
|---|---|---|
| Selection.Toggle | script_csv.js:260 | Clicking a value clears the selection exactly when that value is already selected; otherwise it selects that value |
| Selection.ToggleTwice | script_csv.js:260 | Two toggles of the same value restore the selection exactly when it was empty or that value; from any other value they end empty |
| Selection.Tap | script_csv.js:266-271 | A tap on the pending value confirms it and clears the pending slot; any other tap makes it pending and keeps the confirmed value; a confirmed value is never cleared |
| Selection.TapTwiceConfirms | script_csv.js:266-271 | Two taps on a value confirm it from any state; a third tap previews it again exactly when the first tap did not confirm |
| Expenses.StrictEquals | script_csv.js:158 | JavaScript's `===` on numbers: equal values are equal, and NaN equals nothing, not even itself |
| Expenses.KeyOf | script_csv.js:160 | The key `${lat}_${lon}` as the pair of coordinates, which stands for the string: number-to-text is one-to-one on the numbers `===` can equal and never prints `_`; a record is in its own key's nest exactly when neither coordinate is NaN |
| Expenses.InNest | script_csv.js:174 | The test `d.lat === k.lat && d.lon === k.lon` of the filter (:158, :184) and of the opacity choice (:174, :193): a record in a nest has exactly the nest's coordinates, and neither is NaN |
| Expenses.Matching | script_csv.js:158 | The filter returns, in strictly increasing order, exactly the indices whose record's lat and lon are both `===` to the key's |
| Expenses.NestOf | script_csv.js:158 | The nest holds exactly the records `===`-colocated with the clicked one; the clicked record belongs to it exactly when neither coordinate is NaN |
| Expenses.SlotOfMember | script_csv.js:172-179 | Member `j` of a nest sits at position "number of members before j" in the nest, which is the index `spreadPoints` gives it |
| Expenses.KeyDeterminesNest | script_csv.js:158-160 | For nests of two or more records, two clicked records have the same key exactly when they have the same nest |
| Expenses.NaNRecordHasEmptyNest | script_csv.js:158-159 | A record with a NaN coordinate has an empty nest, so clicking it is ignored |
| Interaction.Truthy | script_csv.js:68-69 | JavaScript truthiness of a category variable, as in `if (activeCategory)` and `!activeCategory` (also :74-75, 239, 244, 255, 257, 261): `null` and the empty name are false |
| Interaction.LegendClick | script_csv.js:259-260 | The desktop row handler sets the active category to none exactly when it was the clicked one, otherwise to the clicked one; no other variable changes |
| Interaction.LegendTap | script_csv.js:264-271 | Tapping the previewed category activates it and clears the preview; tapping any other category previews it and keeps the active one; nests untouched |
| Interaction.PointClick | script_csv.js:157-170 | A click on a record alone at its coordinates changes nothing; otherwise the exploded nest becomes none exactly when it was this nest, else this nest; other variables unchanged |
| Interaction.PointTap | script_csv.js:183-205 | A tap on a lone record changes nothing; tapping the previewed nest explodes it and clears the preview; tapping another nest previews it and keeps the exploded one |
| Interaction.Background | script_csv.js:316-320 | The background click clears both previews and the exploded nest and keeps the active category |
| Interaction.LegendClickTwice | script_csv.js:260 | Two clicks on a row restore the state exactly when no category or that one was active; the active category ends as none exactly when it was not that row's |
| Interaction.LegendTapTwice | script_csv.js:266-271 | Two taps on a row activate its category from any state |
| Interaction.PointClickTwice | script_csv.js:158-170 | Starting from another nest or none, a click changes the exploded nest exactly when the nest has two or more records; two clicks restore the state exactly when the nest is lone or nothing was exploded |
| Interaction.PointTapTwice | script_csv.js:187-204 | Two taps on a point of a nest of two or more records explode that nest from any state |
| Interaction.BackgroundIdempotent | script_csv.js:318-320 | The reset applied twice equals the reset applied once, and it is the identity exactly on states without previews or exploded nest |
| Styling.CircleDisplay | script_csv.js:67-71 | The display part of `updateCircles`: a point is shown exactly when no category is in focus or it belongs to the focused one |
| Styling.CircleOpacity | script_csv.js:73-77 | The opacity part of `updateCircles`: under a truthy active category 80 for its points and 0 for the rest; otherwise under a truthy preview 60 for its points and 10 for the rest; with neither, 70 for every point |
| Styling.HoverDisplay | script_csv.js:238-241 | The hover display rule: the hovered category is always shown; with no truthy active category every point is; otherwise exactly the active and the hovered category are |
| Styling.HoverOpacity | script_csv.js:242-247 | The hover opacity rule: with no truthy active category 80 for the hovered category and 10 for the rest; otherwise 80 for the active category, 50 for a hovered category that is not the active one, and unspecified only for points of neither |
| Styling.RestDisplay | script_csv.js:255-261 | The mouse-out and click display rule is `updateCircles` with the preview ignored |
| Styling.RestOpacity | script_csv.js:257 | The mouse-out opacity is 70 for shown points and 0 for hidden ones |
| Styling.Focus | script_csv.js:68-69 | The filtering category is the active one when truthy, else the previewed one when truthy, else none |
| Styling.DisplayPrecedence | script_csv.js:67-71 | Case by case: under a truthy active category a point is shown exactly when it is of that category, whatever the preview; under a truthy preview alone exactly when it is of the previewed category; with neither, every point is shown |
| Styling.PreviewIgnoredUnderActive | script_csv.js:68-75 | Under a truthy active category, changing the preview changes neither display nor opacity |
| Styling.OpacityFollowsDisplay | script_csv.js:67-77 | Shown points get opacity 60 or more and hidden ones 10 or less; under an active category every hidden point gets 0; only 0, 10, 60, 70 and 80 occur |
| Styling.HoverUnstyledOnlyWhenHidden | script_csv.js:238-247 | The hover rule leaves the opacity unspecified exactly for the points it hides |
| Styling.HoverExtendsRest | script_csv.js:238-257 | Hovering shows everything the mouse-out rule shows plus at most the hovered category; with no active category only the hovered category gets 80 |
| Styling.RestIsUnpreviewed | script_csv.js:255-261 | The mouse-out and click display rule equals `updateCircles` when there is no preview, and shows a point exactly when its opacity is nonzero |
| Chart.Start | script_csv.js:128-136 | The first drawing has every variable null, every point shown at home with opacity 70, and the map opaque |
| Chart.Explode | script_csv.js:171-179 | Exploding as intended: displays are kept; nest members, and only they, get opacity 100 and move in order to slots 0..n-1 of the spread; all others get 5 and stay put; the map is dimmed to 10 |
| Chart.ExplodeAsWritten | script_csv.js:173-179 | Exploding as the code does it: the members' move cancels their opacity change, so members keep their opacity and display and move in order to slots 0..n-1; every other point gets opacity 5 and keeps its display and placement; the map is dimmed to 10 |
| Chart.ExplodeCorrectsMemberOpacity | script_csv.js:173-179 | The intended and the as-written explode agree on the map and on every point outside the nest, and on nest members they differ only in opacity |
| Chart.ExplodeAsWrittenLeavesMembersDim | script_csv.js:173-179 | With two records at (47, 8), a nest of records 0 and 1, and one record elsewhere, clicking record 0 on the first drawing leaves it at opacity 70 in the code, against 100 intended |
| Chart.Collapse | script_csv.js:161-167 | Collapsing keeps every display, puts every point at its projected position with opacity 70, and makes the map opaque |
| Chart.Restyle | script_csv.js:65-78 | `updateCircles` over all points moves none; a point is shown exactly when no category is in focus or it is the focused one, with the opacity `CircleOpacity` gives |
| Chart.HoverLegend | script_csv.js:233-248 | A legend hover changes neither state, placements nor map; every point gets the display and opacity of the hover rule, so the hovered category is always shown and the opacity is unspecified exactly for the points it hides |
| Chart.LeaveLegend | script_csv.js:253-258 | A legend mouse-out changes neither state, placements nor map; it shows exactly the active category (all points when none is truthy), the shown points at 70 and the hidden ones at 0 |
| Chart.Step | script_csv.js:138-273 | Hover events do nothing on a touch device and never change the state; only a legend press can change the active category |
| Chart.Run | script_csv.js:138-273 | A sequence of events without a legend press leaves the active category unchanged |
| Chart.ClickPoint | script_csv.js:157-180 | A desktop point click never changes a display; a lone record changes nothing; clicking the exploded nest collapses everything; clicking another nest explodes it (the corrected `Explode`, see "## Left out") |
| Chart.TapPoint | script_csv.js:183-206 | A touch tap on a lone record changes nothing; a preview tap leaves the drawing alone; a tap on the previewed nest explodes it (the corrected `Explode`, see "## Left out") |
| Chart.ClickBackground | script_csv.js:316-328 | After a background click the state is reset, every point is at home with opacity 70 and the display `updateCircles` gives, and the map is opaque |
| Chart.ClickLegend | script_csv.js:259-262 | A desktop legend click toggles the category, then resets as a background click: every point is at home with opacity 70, shown by the active-category rule |
| Chart.TapLegend | script_csv.js:264-273 | A touch legend tap moves no point and leaves the map alone, and shows a point exactly when it belongs to the category in focus, or none is |
| Chart.StartCoherent | script_csv.js:7-10 | The first drawing is coherent on both kinds of device |
| Chart.StepKeepsCoherent | script_csv.js:138-273 | Every modelled handler keeps coherence: with no exploded nest every point is home and the map opaque; an exploded or previewed nest has two or more records; exploded members sit in their slots; a desktop never previews |
| Chart.RunKeepsCoherent | script_csv.js:138-273 | Every sequence of events from a coherent configuration ends coherent |
| Chart.ExplodeThenCollapse | script_csv.js:161-179 | On a desktop, two clicks on a nest not yet exploded return every point to its projected position at opacity 70, restore the map, keep displays, and clear only the exploded nest |
| Chart.SecondExplodeKeepsFirstSpread | script_csv.js:170-179 | Exploding a second nest while one is exploded leaves the first nest's points in their spread slots |
| Chart.HoverLeavesNoTrace | script_csv.js:233-257 | A legend hover changes no state, and after the mouse-out the drawing is the same as with no hover at all |
| Chart.BackgroundTwice | script_csv.js:316-328 | The background click is idempotent, and afterwards a point is shown exactly when no category is truthily active or it is the active one |
| Chart.ClickLegendTwice | script_csv.js:259-262 | Starting with that category or none active, two desktop clicks on a row restore the active category and its filter, with every point at home |
| Chart.TouchActiveSticks | script_csv.js:264-273 | On a touch device, once `activeCategory` is set, no sequence of events sets it back to `null` |
| Chart.DesktopNeverPreviews | script_csv.js:138-262 | On a desktop, from the first drawing no sequence of events creates a category or nest preview, so `updateCircles` and the mouse-out rule always agree on display |

## Left out

- Chart.ClickPoint: its explode branch uses the corrected `Explode`, where the nest's points end at opacity 100. The code leaves them at their previous opacity (script_csv.js:173-179; see "## Findings", and `ExplodeAsWritten` for the code as written). Everything else in the branch matches the code.
- Chart.TapPoint: the same difference in its explode branch (script_csv.js:192-198). Through these two members, `Step`, `Run` and the lemmas about runs describe the corrected program in this one respect.
- Spread coordinates (`spreadPoints`, script_csv.js:38-62): the circle and spiral positions are floating-point trigonometry scaled by the zoom level. The model keeps only which slot of which nest a point occupies and the nest size (`Placement.Spread`).
- Projection fitting and `d3.geoMercator` (script_csv.js:97-113): floating-point arithmetic and library calls.
- Zoom and radius rescaling (script_csv.js:28-35) and the scales `rScale`, `colorScale` and `barScale`: library calls on floats.
- Legend sums by `d3.rollups` (script_csv.js:214-215): a library call. Legend rows are identified only by their category name.
- The tooltip (content, position and opacity), the point `mouseover`/`mousemove`/`mouseout` handlers (they only affect the tooltip), transition durations and intermediate animation states. Only the final styles of each handler are modelled.
- Loading the CSV and GeoJSON files and the detection of touch support: I/O.
- The resize redraw (script_csv.js:311-313) is not an event of the model. It re-runs `draw()`, which puts every point back at its projected position and the map at full opacity, but keeps `explodedNest`. After "explode, then resize" the drawing no longer satisfies `Coherent`, and a click on that nest then collapses points that are already home. `Coherent` is only claimed for configurations reached without a resize. The kind of device is a boolean parameter of `Step` and `Run`.
- Record fields other than `lat`, `lon` and `Kategorie`. The amount (`betrag`) sets each circle's radius (script_csv.js:34, 134), the spread radius (script_csv.js:42), and the legend sums and bar widths (script_csv.js:214-228). These uses are left out with `rScale`, `barScale` and `d3.rollups`. The place and description feed only the tooltip.
- Infinite coordinates (`Infinity`, `-Infinity`) are not modelled: `Finite` holds the exact value of an ordinary number. An empty cell converts to `Finite(0.0)`. The values 0 and -0 need no separate case, because `===` treats them as equal and both print as `0`.
- The HTML page is not part of this model. The model assumes the `svg` element exists when the script runs, so that the background click handler is attached.

## Findings

| source | as written | input that shows it | evidently intended | confidence | as-written member | corrected member |
|---|---|---|---|---|---|---|
| script_csv.js:173-179 (and 192-198) | The opacity transition (1 for nest members, 0.05 for the others) is followed by a second, unnamed transition on the nest members that moves them. Starting it cancels the first transition on those points, so members keep their previous opacity | Records (47, 8, "Hotel"), (47, 8, "Essen") and (46, 7, "Hotel") on the first drawing; click record 0: it stays at opacity 0.7 | Nest members at opacity 1, above the dimmed 0.05 of every other point | medium, not executed | Chart.ExplodeAsWritten (with Chart.ExplodeAsWrittenLeavesMembersDim) | Chart.Explode |

=== FILE: chart.dfy ===
/** What the state machine does to the drawing: each point's display,
    opacity and placement, and the world map's opacity, updated by the event
    handlers; plus runs of events and the invariants they keep. */
module Chart {
  import opened Wrappers
  import opened Expenses
  import opened Interaction
  import opened Styling

  /** Where a point is drawn: at its projected coordinates, or in slot `slot`
      of the `size`-point spread of nest `nest`.  The spread coordinates
      themselves (trigonometry scaled by the zoom level) are not modelled. */
  datatype Placement = Projected | Spread(nest: NestKey, slot: nat, size: nat)

  datatype Mark = Mark(display: Display, opacity: Opacity, placement: Placement)

  /** One mark per record, in data order, and the opacity of the world map. */
  datatype Scene = Scene(marks: seq<Mark>, mapOpacity: nat)

  datatype Ui = Ui(state: State, scene: Scene)

  predicate Fits(data: seq<Expense>, u: Ui) {
    |u.scene.marks| == |data|
  }

  /** The input events.  `LegendPress` is a click on a legend row on a
      desktop and a `touchstart` on a touch device; `PointPress` is a click
      (or tap) on the point of `data[index]`; `BackgroundPress` is a click
      anywhere in the drawing that is not a point. */
  datatype Event =
    | LegendOver(cat: string)
    | LegendOut
    | LegendPress(cat: string)
    | PointPress(index: nat)
    | BackgroundPress

  predicate ValidEvent(data: seq<Expense>, e: Event) {
    e.PointPress? ==> e.index < |data|
  }

  /** `updateCircles` applied to every mark: no point moves, and a point is
      shown exactly when no category is in focus or it is the focused one. */
  function Restyle(s: State, data: seq<Expense>, marks: seq<Mark>): (r: seq<Mark>)
    requires |marks| == |data|
    ensures |r| == |data|
    ensures forall j :: 0 <= j < |data| ==>
      && r[j].placement == marks[j].placement
      && (r[j].display == Block <==> Focus(s) == None || Focus(s) == Some(data[j].category))
      && r[j].opacity == Percent(CircleOpacity(s, data[j].category))
  {
    seq(|data|, j requires 0 <= j < |data| =>
      Mark(CircleDisplay(s, data[j].category), Percent(CircleOpacity(s, data[j].category)),
           marks[j].placement))
  }

  /** The points as first drawn (opacity attribute 0.8), then styled by
      `updateCircles` with every variable `null`; the map fully opaque. */
  function Start(data: seq<Expense>): (u: Ui)
    ensures Fits(data, u) && u.state == Initial && u.scene.mapOpacity == 100
    ensures forall j :: 0 <= j < |data| ==> u.scene.marks[j] == Mark(Block, Percent(70), Projected)
  {
    var drawn := seq(|data|, j => Mark(Block, Percent(80), Projected));
    Ui(Initial, Scene(Restyle(Initial, data, drawn), 100))
  }

  /** Every point back at its projected position with opacity 0.7, map
      fully opaque; display untouched. */
  function Collapse(sc: Scene): (r: Scene)
    ensures |r.marks| == |sc.marks| && r.mapOpacity == 100
    ensures forall j :: 0 <= j < |r.marks| ==>
      r.marks[j] == Mark(sc.marks[j].display, Percent(70), Projected)
  {
    Scene(seq(|sc.marks|, j requires 0 <= j < |sc.marks| =>
      sc.marks[j].(opacity := Percent(70), placement := Projected)), 100)
  }

  /** Every point's slot in its own nest: the number of nest members before
      it, so that member `t` of the nest gets slot `t`. */
  lemma SlotsOfNest(data: seq<Expense>, k: NestKey)
    ensures forall t :: 0 <= t < |NestAt(data, k)| ==>
      InNest(data[NestAt(data, k)[t]], k) && |Matching(data, NestAt(data, k)[t], k)| == t
  {
    forall t | 0 <= t < |NestAt(data, k)|
      ensures InNest(data[NestAt(data, k)[t]], k) && |Matching(data, NestAt(data, k)[t], k)| == t
    {
      MemberOfSlot(data, t, k);
    }
  }

  /** Exploding the nest of `data[i]` as evidently intended: nest members
      get opacity 1 and are moved, in order, to the slots of the spread; all
      other points get opacity 0.05 and stay where they are; the map is
      dimmed to 0.1.  Every nest member ends more opaque than every other
      point.  This is the definition the handlers below use; the code as
      written is `ExplodeAsWritten`. */
  function Explode(data: seq<Expense>, sc: Scene, i: nat): (r: Scene)
    requires |sc.marks| == |data| && i < |data|
    ensures |r.marks| == |data| && r.mapOpacity == 10
    ensures forall j :: 0 <= j < |data| ==> r.marks[j].display == sc.marks[j].display
    ensures forall j :: 0 <= j < |data| ==>
      (r.marks[j].opacity == Percent(100) <==> j in NestOf(data, i))
    ensures forall j :: 0 <= j < |data| && j !in NestOf(data, i) ==>
      r.marks[j].opacity == Percent(5) && r.marks[j].placement == sc.marks[j].placement
    ensures forall t :: 0 <= t < |NestOf(data, i)| ==>
      r.marks[NestOf(data, i)[t]].placement == Spread(KeyOf(data[i]), t, |NestOf(data, i)|)
  {
    var k := KeyOf(data[i]);
    var n := |NestAt(data, k)|;
    SlotsOfNest(data, k);
    Scene(seq(|data|, j requires 0 <= j < |data| =>
      if InNest(data[j], k)
      then sc.marks[j].(opacity := Percent(100), placement := Spread(k, |Matching(data, j, k)|, n))
      else sc.marks[j].(opacity := Percent(5))), 10)
  }

  /** Exploding the nest of `data[i]` as the code does it.  The handler
      starts one transition that sets opacity 1 on the members and 0.05 on
      the others, then a second, unnamed transition that moves the members.
      A d3 transition that starts interrupts the earlier transition of the
      same name on the same element, so the members never reach opacity 1:
      they keep the opacity they had.  Only the other points get 0.05. */
  function ExplodeAsWritten(data: seq<Expense>, sc: Scene, i: nat): (r: Scene)
    requires |sc.marks| == |data| && i < |data|
    ensures |r.marks| == |data| && r.mapOpacity == 10
    ensures forall j :: 0 <= j < |data| && j in NestOf(data, i) ==>
      r.marks[j].opacity == sc.marks[j].opacity && r.marks[j].display == sc.marks[j].display
    ensures forall j :: 0 <= j < |data| && j !in NestOf(data, i) ==>
      r.marks[j] == sc.marks[j].(opacity := Percent(5))
    ensures forall t :: 0 <= t < |NestOf(data, i)| ==>
      r.marks[NestOf(data, i)[t]].placement == Spread(KeyOf(data[i]), t, |NestOf(data, i)|)
  {
    var k := KeyOf(data[i]);
    var n := |NestAt(data, k)|;
    SlotsOfNest(data, k);
    Scene(seq(|data|, j requires 0 <= j < |data| =>
      if InNest(data[j], k)
      then sc.marks[j].(placement := Spread(k, |Matching(data, j, k)|, n))
      else sc.marks[j].(opacity := Percent(5))), 10)
  }

  /** The corrected explode differs from the code only in the opacity of the
      nest members: the two agree on the map and on every other point. */
  lemma ExplodeCorrectsMemberOpacity(data: seq<Expense>, sc: Scene, i: nat)
    requires |sc.marks| == |data| && i < |data|
    ensures Explode(data, sc, i).mapOpacity == ExplodeAsWritten(data, sc, i).mapOpacity
    ensures forall j :: 0 <= j < |data| ==>
      Explode(data, sc, i).marks[j] ==
        ExplodeAsWritten(data, sc, i).marks[j].(opacity := Explode(data, sc, i).marks[j].opacity)
    ensures forall j :: 0 <= j < |data| && j !in NestOf(data, i) ==>
      ExplodeAsWritten(data, sc, i).marks[j] == Explode(data, sc, i).marks[j]
  {
  }

  /** A concrete case: two records at (47, 8) and one elsewhere, on the
      first drawing.  Clicking record 0 leaves it at opacity 0.7 in the code,
      where 1 was meant; it is no more opaque than before the click. */
  lemma ExplodeAsWrittenLeavesMembersDim()
    ensures var data := [Expense(Finite(47.0), Finite(8.0), "Hotel"),
                         Expense(Finite(47.0), Finite(8.0), "Essen"),
                         Expense(Finite(46.0), Finite(7.0), "Hotel")];
      && 0 in NestOf(data, 0) && 1 in NestOf(data, 0) && 2 !in NestOf(data, 0)
      && ExplodeAsWritten(data, Start(data).scene, 0).marks[0].opacity == Percent(70)
      && Explode(data, Start(data).scene, 0).marks[0].opacity == Percent(100)
  {
    var data := [Expense(Finite(47.0), Finite(8.0), "Hotel"),
                 Expense(Finite(47.0), Finite(8.0), "Essen"),
                 Expense(Finite(46.0), Finite(7.0), "Hotel")];
    var nest := NestOf(data, 0);
    assert InNest(data[1], KeyOf(data[0])) && !InNest(data[2], KeyOf(data[0]));
    var sc := Start(data).scene;
    assert sc.marks[0] == Mark(Block, Percent(70), Projected);
    assert ExplodeAsWritten(data, sc, 0).marks[0].opacity == sc.marks[0].opacity;
  }

  /** Desktop point click. */
  function ClickPoint(data: seq<Expense>, u: Ui, i: nat): (r: Ui)
    requires Fits(data, u) && i < |data|
    ensures Fits(data, r) && r.state == PointClick(u.state, data, i)
    ensures |NestOf(data, i)| <= 1 ==> r == u
    ensures forall j :: 0 <= j < |data| ==> r.scene.marks[j].display == u.scene.marks[j].display
    ensures |NestOf(data, i)| > 1 && u.state.explodedNest == Some(KeyOf(data[i])) ==>
      r.scene == Collapse(u.scene)
    ensures |NestOf(data, i)| > 1 && u.state.explodedNest != Some(KeyOf(data[i])) ==>
      r.scene == Explode(data, u.scene, i)
  {
    var s := PointClick(u.state, data, i);
    if |NestOf(data, i)| <= 1 then u
    else if u.state.explodedNest == Some(KeyOf(data[i])) then Ui(s, Collapse(u.scene))
    else Ui(s, Explode(data, u.scene, i))
  }

  /** Touch point tap: the preview tap only shows the tooltip, which is not
      modelled, so it leaves the scene alone. */
  function TapPoint(data: seq<Expense>, u: Ui, i: nat): (r: Ui)
    requires Fits(data, u) && i < |data|
    ensures Fits(data, r) && r.state == PointTap(u.state, data, i)
    ensures |NestOf(data, i)| <= 1 ==> r == u
    ensures u.state.previewedNest != Some(KeyOf(data[i])) ==> r.scene == u.scene
    ensures |NestOf(data, i)| > 1 && u.state.previewedNest == Some(KeyOf(data[i])) ==>
      r.scene == Explode(data, u.scene, i)
  {
    var s := PointTap(u.state, data, i);
    if |NestOf(data, i)| <= 1 then u
    else if u.state.previewedNest == Some(KeyOf(data[i])) then Ui(s, Explode(data, u.scene, i))
    else Ui(s, u.scene)
  }

  /** Background click: reset the transient variables, restyle with
      `updateCircles`, then move every point home with opacity 0.7 (this
      later transition replaces the opacity one `updateCircles` started)
      and restore the map. */
  function ClickBackground(data: seq<Expense>, u: Ui): (r: Ui)
    requires Fits(data, u)
    ensures Fits(data, r) && r.state == Background(u.state) && r.scene.mapOpacity == 100
    ensures forall j :: 0 <= j < |data| ==>
      r.scene.marks[j] == Mark(CircleDisplay(r.state, data[j].category), Percent(70), Projected)
  {
    var s := Background(u.state);
    Ui(s, Collapse(Scene(Restyle(s, data, u.scene.marks), u.scene.mapOpacity)))
  }

  /** Desktop legend row `mouseover`: restyles by the hover rule and changes
      neither the state, nor any placement, nor the map. */
  function HoverLegend(data: seq<Expense>, u: Ui, cat: string): (r: Ui)
    requires Fits(data, u)
    ensures Fits(data, r) && r.state == u.state && r.scene.mapOpacity == u.scene.mapOpacity
    ensures forall j :: 0 <= j < |data| ==>
      && r.scene.marks[j].placement == u.scene.marks[j].placement
      && (data[j].category == cat ==> r.scene.marks[j].display == Block)
      && (r.scene.marks[j].opacity == Unstyled <==> r.scene.marks[j].display == Hidden)
      && r.scene.marks[j].display == HoverDisplay(u.state, cat, data[j].category)
      && r.scene.marks[j].opacity == HoverOpacity(u.state, cat, data[j].category)
  {
    u.(scene := u.scene.(marks := seq(|data|, j requires 0 <= j < |data| =>
      Mark(HoverDisplay(u.state, cat, data[j].category), HoverOpacity(u.state, cat, data[j].category),
           u.scene.marks[j].placement))))
  }

  /** Desktop legend row `mouseout`: shows the active category (or all) at
      0.7, hides the rest at 0, and changes neither the state, nor any
      placement, nor the map. */
  function LeaveLegend(data: seq<Expense>, u: Ui): (r: Ui)
    requires Fits(data, u)
    ensures Fits(data, r) && r.state == u.state && r.scene.mapOpacity == u.scene.mapOpacity
    ensures forall j :: 0 <= j < |data| ==>
      && r.scene.marks[j].placement == u.scene.marks[j].placement
      && (r.scene.marks[j].display == Block <==>
            !Truthy(u.state.activeCategory) || u.state.activeCategory == Some(data[j].category))
      && (r.scene.marks[j].opacity == Percent(70) <==> r.scene.marks[j].display == Block)
      && r.scene.marks[j].opacity == Percent(RestOpacity(u.state, data[j].category))
  {
    u.(scene := u.scene.(marks := seq(|data|, j requires 0 <= j < |data| =>
      Mark(RestDisplay(u.state, data[j].category), Percent(RestOpacity(u.state, data[j].category)),
           u.scene.marks[j].placement))))
  }

  /** Desktop legend row click: the row's handler toggles the active category
      and redisplays; the click then bubbles to the drawing, whose handler
      sees a target that is not a point and resets. */
  function ClickLegend(data: seq<Expense>, u: Ui, cat: string): (r: Ui)
    requires Fits(data, u)
    ensures r.state == Background(LegendClick(u.state, cat))
    ensures Fits(data, r) && r.scene.mapOpacity == 100
    ensures forall j :: 0 <= j < |data| ==>
      r.scene.marks[j] == Mark(RestDisplay(r.state, data[j].category), Percent(70), Projected)
  {
    var s := LegendClick(u.state, cat);
    var shown := seq(|data|, j requires 0 <= j < |data| =>
      u.scene.marks[j].(display := RestDisplay(s, data[j].category)));
    ClickBackground(data, Ui(s, u.scene.(marks := shown)))
  }

  /** Touch legend row `touchstart` (its default action, and so any click,
      is prevented). */
  function TapLegend(data: seq<Expense>, u: Ui, cat: string): (r: Ui)
    requires Fits(data, u)
    ensures Fits(data, r) && r.state == LegendTap(u.state, cat)
    ensures r.scene.mapOpacity == u.scene.mapOpacity
    ensures forall j :: 0 <= j < |data| ==>
      r.scene.marks[j].placement == u.scene.marks[j].placement
      && (r.scene.marks[j].display == Block <==>
            Focus(r.state) == None || Focus(r.state) == Some(data[j].category))
      && r.scene.marks[j].opacity == Percent(CircleOpacity(r.state, data[j].category))
  {
    var s := LegendTap(u.state, cat);
    Ui(s, u.scene.(marks := Restyle(s, data, u.scene.marks)))
  }

  /** One event on a desktop (`touch` false) or a touch device (`touch`
      true); the hover events have no handler on a touch device. */
  function Step(touch: bool, data: seq<Expense>, u: Ui, e: Event): (r: Ui)
    requires Fits(data, u) && ValidEvent(data, e)
    ensures Fits(data, r)
    ensures touch && (e.LegendOver? || e.LegendOut?) ==> r == u
    ensures e.LegendOver? || e.LegendOut? ==> r.state == u.state
    ensures !e.LegendPress? ==> r.state.activeCategory == u.state.activeCategory
  {
    match e
    case LegendOver(cat) => if touch then u else HoverLegend(data, u, cat)
    case LegendOut => if touch then u else LeaveLegend(data, u)
    case LegendPress(cat) => if touch then TapLegend(data, u, cat) else ClickLegend(data, u, cat)
    case PointPress(i) => if touch then TapPoint(data, u, i) else ClickPoint(data, u, i)
    case BackgroundPress => ClickBackground(data, u)
  }

  /** A sequence of events, handled one at a time.  Only legend presses
      change the active category. */
  function Run(touch: bool, data: seq<Expense>, u: Ui, events: seq<Event>): (r: Ui)
    requires Fits(data, u)
    requires forall t :: 0 <= t < |events| ==> ValidEvent(data, events[t])
    ensures Fits(data, r)
    ensures (forall t :: 0 <= t < |events| ==> !events[t].LegendPress?) ==>
      r.state.activeCategory == u.state.activeCategory
    decreases |events|
  {
    if events == [] then u
    else Run(touch, data, Step(touch, data, u, events[0]), events[1..])
  }

  /** What every configuration reachable from the first drawing through the
      modelled events satisfies (a window resize, which redraws the points
      at home but keeps `explodedNest`, is not one of them): with no nest exploded
      every point is at home and the map is opaque; an exploded nest is a
      real nest (two or more points) whose members sit in order in its
      spread slots, with the map dimmed; a previewed nest is a real nest;
      and a desktop never has a preview. */
  predicate Coherent(touch: bool, data: seq<Expense>, u: Ui) {
    && Fits(data, u)
    && (u.state.explodedNest == None ==>
          u.scene.mapOpacity == 100
          && forall j :: 0 <= j < |u.scene.marks| ==> u.scene.marks[j].placement == Projected)
    && (u.state.explodedNest != None ==>
          var k := u.state.explodedNest.value;
          && u.scene.mapOpacity == 10
          && |NestAt(data, k)| > 1
          && forall t :: 0 <= t < |NestAt(data, k)| ==>
               NestAt(data, k)[t] < |u.scene.marks|
               && u.scene.marks[NestAt(data, k)[t]].placement == Spread(k, t, |NestAt(data, k)|))
    && (u.state.previewedNest != None ==> |NestAt(data, u.state.previewedNest.value)| > 1)
    && (!touch ==> u.state.previewCategory == None && u.state.previewedNest == None)
  }

  lemma StartCoherent(touch: bool, data: seq<Expense>)
    ensures Coherent(touch, data, Start(data))
  {
  }

  /** Every handler keeps the configuration coherent. */
  lemma StepKeepsCoherent(touch: bool, data: seq<Expense>, u: Ui, e: Event)
    requires Coherent(touch, data, u) && ValidEvent(data, e)
    ensures Coherent(touch, data, Step(touch, data, u, e))
  {
  }

  /** Every run from a coherent configuration stays coherent. */
  lemma {:induction false} RunKeepsCoherent(touch: bool, data: seq<Expense>, u: Ui, events: seq<Event>)
    requires Coherent(touch, data, u)
    requires forall t :: 0 <= t < |events| ==> ValidEvent(data, events[t])
    ensures Coherent(touch, data, Run(touch, data, u, events))
    decreases |events|
  {
    if events != [] {
      StepKeepsCoherent(touch, data, u, events[0]);
      RunKeepsCoherent(touch, data, Step(touch, data, u, events[0]), events[1..]);
    }
  }

  /** Desktop: clicking a point of a nest that is not exploded and then
      clicking it again puts every point back at its projected position with
      opacity 0.7, restores the map, and leaves only `explodedNest` changed
      (cleared); no point's display changes along the way. */
  lemma ExplodeThenCollapse(data: seq<Expense>, u: Ui, i: nat)
    requires Fits(data, u) && i < |data| && |NestOf(data, i)| > 1
    requires u.state.explodedNest != Some(KeyOf(data[i]))
    ensures var v := ClickPoint(data, ClickPoint(data, u, i), i);
      && v.state == u.state.(explodedNest := None)
      && v.scene.mapOpacity == 100
      && forall j :: 0 <= j < |data| ==>
           v.scene.marks[j] == u.scene.marks[j].(opacity := Percent(70), placement := Projected)
  {
  }

  /** Desktop: exploding a second nest while one is exploded leaves the first
      nest's points in their spread slots (only dimmed); they return home
      only with a collapse or a background click. */
  lemma SecondExplodeKeepsFirstSpread(data: seq<Expense>, u: Ui, i: nat)
    requires Coherent(false, data, u) && i < |data| && |NestOf(data, i)| > 1
    requires u.state.explodedNest != None && u.state.explodedNest != Some(KeyOf(data[i]))
    ensures var v := ClickPoint(data, u, i);
      var a := u.state.explodedNest.value;
      && v.state.explodedNest == Some(KeyOf(data[i]))
      && forall t :: 0 <= t < |NestAt(data, a)| ==>
           v.scene.marks[NestAt(data, a)[t]].placement == Spread(a, t, |NestAt(data, a)|)
  {
  }

  /** Hovering a legend row leaves no trace once the mouse leaves it. */
  lemma HoverLeavesNoTrace(data: seq<Expense>, u: Ui, cat: string)
    requires Fits(data, u)
    ensures HoverLegend(data, u, cat).state == u.state
    ensures LeaveLegend(data, HoverLegend(data, u, cat)) == LeaveLegend(data, u)
  {
  }

  /** The background click is idempotent, and it always brings every point
      home at opacity 0.7 showing exactly the active category (all points
      when none is truthy). */
  lemma BackgroundTwice(data: seq<Expense>, u: Ui)
    requires Fits(data, u)
    ensures ClickBackground(data, ClickBackground(data, u)) == ClickBackground(data, u)
    ensures forall j :: 0 <= j < |data| ==>
      (ClickBackground(data, u).scene.marks[j].display == Block <==>
        !Truthy(u.state.activeCategory) || u.state.activeCategory == Some(data[j].category))
  {
  }

  /** Desktop: clicking a legend row twice, starting with no active category
      or with that one, restores the active category and its filter, with
      every point at home at opacity 0.7; from no active category, every
      point is shown again. */
  lemma ClickLegendTwice(data: seq<Expense>, u: Ui, cat: string)
    requires Fits(data, u)
    requires u.state.activeCategory == None || u.state.activeCategory == Some(cat)
    ensures var v := ClickLegend(data, ClickLegend(data, u, cat), cat);
      && v.state.activeCategory == u.state.activeCategory
      && forall j :: 0 <= j < |data| ==>
           && v.scene.marks[j].placement == Projected
           && (v.scene.marks[j].display == Block <==>
                 !Truthy(u.state.activeCategory) || u.state.activeCategory == Some(data[j].category))
  {
  }

  /** Touch: no handler ever sets the active category back to `null`, so
      once one is set a touch user can switch categories but never return to
      `null` (only a category with an empty name shows every point again). */
  lemma {:induction false} TouchActiveSticks(data: seq<Expense>, u: Ui, events: seq<Event>)
    requires Fits(data, u) && u.state.activeCategory != None
    requires forall t :: 0 <= t < |events| ==> ValidEvent(data, events[t])
    ensures Run(true, data, u, events).state.activeCategory != None
    decreases |events|
  {
    if events != [] {
      var v := Step(true, data, u, events[0]);
      assert v.state.activeCategory != None by {
        match events[0]
        case LegendPress(cat) => {}
        case PointPress(i) => {}
        case _ => {}
      }
      TouchActiveSticks(data, v, events[1..]);
    }
  }

  /** Desktop: in every configuration reachable from the first drawing there
      is no preview, so `updateCircles` and the mouse-out rule agree. */
  lemma {:induction false} DesktopNeverPreviews(data: seq<Expense>, events: seq<Event>, category: string)
    requires forall t :: 0 <= t < |events| ==> ValidEvent(data, events[t])
    ensures var v := Run(false, data, Start(data), events);
      && v.state.previewCategory == None && v.state.previewedNest == None
      && CircleDisplay(v.state, category) == RestDisplay(v.state, category)
  {
    StartCoherent(false, data);
    RunKeepsCoherent(false, data, Start(data), events);
  }
}

=== FILE: expenses.dfy ===
/** Expense records and nests: the records sharing one (lat, lon) pair. */
module Expenses {

  /** A JavaScript number as produced by the unary `+` on a CSV cell: an
      ordinary value (an empty cell gives `Finite(0.0)`), or NaN for a cell
      that is not a number. */
  datatype Num = Finite(value: real) | NaN

  /** JavaScript's `===` on numbers: NaN equals nothing, not even itself. */
  predicate StrictEquals(a: Num, b: Num)
    ensures StrictEquals(a, b) ==> a == b && a != NaN
    ensures a.Finite? && b.Finite? ==> (StrictEquals(a, b) <==> a == b)
  {
    a.Finite? && b.Finite? && a.value == b.value
  }

  /** One loaded CSV row, reduced to the fields the interaction reads. */
  datatype Expense = Expense(lat: Num, lon: Num, category: string)

  /** The nest key `${lat}_${lon}`.  Number-to-text is one-to-one on the
      numbers `===` can equal and never produces `_`, so the pair stands
      for the string. */
  datatype NestKey = NestKey(lat: Num, lon: Num)

  function KeyOf(d: Expense): (k: NestKey)
    ensures k.lat == d.lat && k.lon == d.lon
    ensures InNest(d, k) <==> d.lat != NaN && d.lon != NaN
  {
    NestKey(d.lat, d.lon)
  }

  /** The filter test of the point click handlers: both coordinates `===`
      the key's. */
  predicate InNest(d: Expense, k: NestKey)
    ensures InNest(d, k) ==> d.lat == k.lat && d.lon == k.lon && k.lat != NaN && k.lon != NaN
  {
    StrictEquals(d.lat, k.lat) && StrictEquals(d.lon, k.lon)
  }

  /** Indices, in data order, of the records among the first `n` that lie in
      nest `k`: `data.filter(...)` restricted to a prefix. */
  function Matching(data: seq<Expense>, n: nat, k: NestKey): (r: seq<nat>)
    requires n <= |data|
    ensures |r| <= n
    ensures forall t :: 0 <= t < |r| ==> r[t] < n && InNest(data[r[t]], k)
    ensures forall j :: 0 <= j < n && InNest(data[j], k) ==> j in r
    ensures forall t, u :: 0 <= t < u < |r| ==> r[t] < r[u]
    decreases n
  {
    if n == 0 then []
    else Matching(data, n - 1, k) + (if InNest(data[n - 1], k) then [n - 1] else [])
  }

  /** The whole nest with key `k`, in data order. */
  function NestAt(data: seq<Expense>, k: NestKey): seq<nat> {
    Matching(data, |data|, k)
  }

  /** The nest of the clicked record `data[i]` (`sameCoords`): the clicked
      record belongs to it exactly when neither of its coordinates is NaN. */
  function NestOf(data: seq<Expense>, i: nat): (r: seq<nat>)
    requires i < |data|
    ensures forall j: int :: j in r <==> 0 <= j < |data| && InNest(data[j], KeyOf(data[i]))
    ensures i in r <==> data[i].lat.Finite? && data[i].lon.Finite?
  {
    NestAt(data, KeyOf(data[i]))
  }

  /** A shorter prefix filters to a prefix of a longer one's filter. */
  lemma {:induction false} MatchingPrefix(data: seq<Expense>, n: nat, m: nat, k: NestKey)
    requires n <= m <= |data|
    ensures Matching(data, n, k) <= Matching(data, m, k)
    decreases m - n
  {
    if n < m {
      MatchingPrefix(data, n, m - 1, k);
    }
  }

  /** The slot of nest member `j` is the number of nest members before it:
      `nest[slot] == j`, and the slots of the members are exactly
      0 .. |nest| - 1. */
  lemma SlotOfMember(data: seq<Expense>, j: nat, k: NestKey)
    requires j < |data| && InNest(data[j], k)
    ensures |Matching(data, j, k)| < |NestAt(data, k)|
    ensures NestAt(data, k)[|Matching(data, j, k)|] == j
  {
    MatchingPrefix(data, j + 1, |data|, k);
    assert Matching(data, j + 1, k) == Matching(data, j, k) + [j];
  }

  /** Inverse of `SlotOfMember`: the member at position `t` has `t` members
      before it. */
  lemma MemberOfSlot(data: seq<Expense>, t: nat, k: NestKey)
    requires t < |NestAt(data, k)|
    ensures InNest(data[NestAt(data, k)[t]], k)
    ensures |Matching(data, NestAt(data, k)[t], k)| == t
  {
    var nest := NestAt(data, k);
    var j := nest[t];
    SlotOfMember(data, j, k);
  }

  /** The key names the nest: two records of nests with at least two members
      have the same key exactly when they have the same nest. */
  lemma KeyDeterminesNest(data: seq<Expense>, i: nat, j: nat)
    requires i < |data| && j < |data|
    requires |NestOf(data, i)| > 1 && |NestOf(data, j)| > 1
    ensures KeyOf(data[i]) == KeyOf(data[j]) <==> NestOf(data, i) == NestOf(data, j)
  {
    if NestOf(data, i) == NestOf(data, j) {
      var x := NestOf(data, i)[0];
      assert x in NestOf(data, i);
      assert InNest(data[x], KeyOf(data[i])) && InNest(data[x], KeyOf(data[j]));
    }
  }

  /** No record is in a nest whose key has a NaN coordinate, so such a
      nest is empty. */
  lemma {:induction false} NaNKeyMatchesNothing(data: seq<Expense>, n: nat, k: NestKey)
    requires n <= |data|
    requires k.lat == NaN || k.lon == NaN
    ensures Matching(data, n, k) == []
  {
    if n > 0 {
      NaNKeyMatchesNothing(data, n - 1, k);
    }
  }

  /** A record with a NaN coordinate has an empty nest, so clicking it does
      nothing, although it is the clicked record. */
  lemma NaNRecordHasEmptyNest(data: seq<Expense>, i: nat)
    requires i < |data| && (data[i].lat == NaN || data[i].lon == NaN)
    ensures NestOf(data, i) == []
  {
    NaNKeyMatchesNothing(data, |data|, KeyOf(data[i]));
  }
}

=== FILE: interaction.dfy ===
/** The interaction state (the four module-level variables of the script)
    and its transitions, one pure function per handler. */
module Interaction {
  import opened Wrappers
  import opened Selection
  import opened Expenses

  /** `activeCategory`, `previewCategory`, `explodedNest`, `previewedNest`;
      `None` is `null`. */
  datatype State = State(
    activeCategory: Option<string>,
    previewCategory: Option<string>,
    explodedNest: Option<NestKey>,
    previewedNest: Option<NestKey>)

  /** All four variables start out `null`. */
  const Initial: State := State(None, None, None, None)

  /** JavaScript truthiness of a category variable, as in
      `if (activeCategory)`: `null` and the empty name are both false. */
  predicate Truthy(c: Option<string>)
    ensures Truthy(c) ==> c.Some?
    ensures c == Some("") ==> !Truthy(c)
  {
    c.Some? && c.value != ""
  }

  /** Desktop legend row click (the row's own handler): toggles the active
      category and leaves every other variable alone. */
  function LegendClick(s: State, cat: string): (r: State)
    ensures r.activeCategory == None <==> s.activeCategory == Some(cat)
    ensures r.activeCategory != None ==> r.activeCategory == Some(cat)
    ensures r.previewCategory == s.previewCategory
    ensures r.explodedNest == s.explodedNest && r.previewedNest == s.previewedNest
  {
    s.(activeCategory := Toggle(s.activeCategory, cat))
  }

  /** Touch legend row tap: the first tap on a category previews it, a tap on
      the previewed category activates it and ends the preview. */
  function LegendTap(s: State, cat: string): (r: State)
    ensures s.previewCategory == Some(cat) ==>
      r.activeCategory == Some(cat) && r.previewCategory == None
    ensures s.previewCategory != Some(cat) ==>
      r.activeCategory == s.activeCategory && r.previewCategory == Some(cat)
    ensures r.explodedNest == s.explodedNest && r.previewedNest == s.previewedNest
  {
    var t := Tap(TwoStep(s.activeCategory, s.previewCategory), cat);
    s.(activeCategory := t.confirmed, previewCategory := t.pending)
  }

  /** Desktop point click on `data[i]`: a record alone at its coordinates is
      ignored; otherwise the click toggles its nest between exploded and
      collapsed. */
  function PointClick(s: State, data: seq<Expense>, i: nat): (r: State)
    requires i < |data|
    ensures |NestOf(data, i)| <= 1 ==> r == s
    ensures |NestOf(data, i)| > 1 ==>
      && (r.explodedNest == None <==> s.explodedNest == Some(KeyOf(data[i])))
      && (r.explodedNest != None ==> r.explodedNest == Some(KeyOf(data[i])))
    ensures r.activeCategory == s.activeCategory && r.previewCategory == s.previewCategory
    ensures r.previewedNest == s.previewedNest
  {
    if |NestOf(data, i)| <= 1 then s
    else s.(explodedNest := Toggle(s.explodedNest, KeyOf(data[i])))
  }

  /** Touch point tap on `data[i]`: a record alone at its coordinates is
      ignored; otherwise the first tap previews its nest and a tap on the
      previewed nest explodes it and ends the preview. */
  function PointTap(s: State, data: seq<Expense>, i: nat): (r: State)
    requires i < |data|
    ensures |NestOf(data, i)| <= 1 ==> r == s
    ensures |NestOf(data, i)| > 1 && s.previewedNest == Some(KeyOf(data[i])) ==>
      r.explodedNest == Some(KeyOf(data[i])) && r.previewedNest == None
    ensures |NestOf(data, i)| > 1 && s.previewedNest != Some(KeyOf(data[i])) ==>
      r.explodedNest == s.explodedNest && r.previewedNest == Some(KeyOf(data[i]))
    ensures r.activeCategory == s.activeCategory && r.previewCategory == s.previewCategory
  {
    if |NestOf(data, i)| <= 1 then s
    else
      var t := Tap(TwoStep(s.explodedNest, s.previewedNest), KeyOf(data[i]));
      s.(explodedNest := t.confirmed, previewedNest := t.pending)
  }

  /** Click on anything but a point: clears the nest and category previews
      and the exploded nest, and keeps the active category. */
  function Background(s: State): (r: State)
    ensures r.previewedNest == None && r.explodedNest == None && r.previewCategory == None
    ensures r.activeCategory == s.activeCategory
  {
    s.(previewedNest := None, explodedNest := None, previewCategory := None)
  }

  /** Clicking the same legend row twice starting with no active category
      (or with that one) returns to the state before; starting with another
      category it ends with none. */
  lemma LegendClickTwice(s: State, cat: string)
    ensures LegendClick(LegendClick(s, cat), cat) == s <==>
      (s.activeCategory == None || s.activeCategory == Some(cat))
    ensures LegendClick(LegendClick(s, cat), cat).activeCategory == None <==>
      s.activeCategory != Some(cat)
  {
  }

  /** Two taps on one legend row activate that category from any state. */
  lemma LegendTapTwice(s: State, cat: string)
    ensures LegendTap(LegendTap(s, cat), cat).activeCategory == Some(cat)
    ensures LegendTap(LegendTap(s, cat), cat).previewCategory == None <==>
      s.previewCategory != Some(cat)
  {
  }

  /** Clicking a point of a nest twice, starting with that nest not exploded,
      ends with no nest exploded and nothing else changed. */
  lemma PointClickTwice(s: State, data: seq<Expense>, i: nat)
    requires i < |data|
    requires s.explodedNest != Some(KeyOf(data[i]))
    ensures PointClick(s, data, i).explodedNest != s.explodedNest <==> |NestOf(data, i)| > 1
    ensures PointClick(PointClick(s, data, i), data, i) == s <==>
      (|NestOf(data, i)| <= 1 || s.explodedNest == None)
  {
  }

  /** Two taps on a point of a nest explode that nest from any state. */
  lemma PointTapTwice(s: State, data: seq<Expense>, i: nat)
    requires i < |data| && |NestOf(data, i)| > 1
    ensures PointTap(PointTap(s, data, i), data, i).explodedNest == Some(KeyOf(data[i]))
  {
  }

  /** The background reset is idempotent, and it changes nothing exactly when
      there is nothing transient to clear. */
  lemma BackgroundIdempotent(s: State)
    ensures Background(Background(s)) == Background(s)
    ensures Background(s) == s <==>
      (s.previewedNest == None && s.explodedNest == None && s.previewCategory == None)
  {
  }
}

=== FILE: selection.dfy ===
/** The two selection disciplines the script uses, each defined once and
    shared by categories and nests:
    - a click toggle (desktop legend row, desktop point), and
    - a two-tap promotion, preview first and confirm second (touch legend row,
      touch point). */
module Selection {
  import opened Wrappers

  /** Clicking `x`: clears the selection when `x` is already selected,
      selects `x` otherwise. */
  function Toggle<T(==)>(held: Option<T>, x: T): (r: Option<T>)
    ensures r == None <==> held == Some(x)
    ensures r != None ==> r == Some(x)
  {
    if held == Some(x) then None else Some(x)
  }

  /** Toggling the same value twice restores the selection exactly when it
      was empty or already that value; otherwise it ends empty. */
  lemma ToggleTwice<T>(held: Option<T>, x: T)
    ensures Toggle(Toggle(held, x), x) == held <==> (held == None || held == Some(x))
    ensures held != Some(x) ==> Toggle(Toggle(held, x), x) == None
  {
  }

  /** A confirmed selection plus a pending (previewed) one. */
  datatype TwoStep<T> = TwoStep(confirmed: Option<T>, pending: Option<T>)

  /** Tapping `x`: a tap on the pending value confirms it and clears the
      pending slot; any other tap makes `x` pending and keeps the confirmed
      value. */
  function Tap<T(==)>(p: TwoStep<T>, x: T): (r: TwoStep<T>)
    ensures r.pending == None <==> p.pending == Some(x)
    ensures r.pending == None ==> r.confirmed == Some(x)
    ensures r.pending != None ==> r.pending == Some(x) && r.confirmed == p.confirmed
    ensures p.confirmed != None ==> r.confirmed != None
  {
    if p.pending == Some(x) then TwoStep(Some(x), None) else TwoStep(p.confirmed, Some(x))
  }

  /** Two taps on the same value always confirm it, whatever came before;
      a third tap only previews it again. */
  lemma TapTwiceConfirms<T>(p: TwoStep<T>, x: T)
    ensures Tap(Tap(p, x), x).confirmed == Some(x)
    ensures Tap(Tap(Tap(p, x), x), x).pending == Some(x) <==> p.pending != Some(x)
  {
  }
}

=== FILE: styling.dfy ===
/** How the interaction state decides each point's `display` and `opacity`.
    Opacities are integer percentages (0.8 is 80). */
module Styling {
  import opened Wrappers
  import opened Interaction

  /** The `display` style: `"block"` or `"none"`. */
  datatype Display = Block | Hidden

  /** The `opacity` style: a percentage, or `Unstyled` when the handler
      yields `undefined` and the inline style is removed. */
  datatype Opacity = Percent(p: nat) | Unstyled

  /** The category, if any, that `updateCircles` filters on: the active one
      when truthy, else the previewed one when truthy. */
  function Focus(s: State): (r: Option<string>)
    ensures Truthy(s.activeCategory) ==> r == s.activeCategory
    ensures !Truthy(s.activeCategory) && Truthy(s.previewCategory) ==> r == s.previewCategory
    ensures !Truthy(s.activeCategory) ==> (r != None <==> Truthy(s.previewCategory))
    ensures r != None ==> r == s.activeCategory || r == s.previewCategory
  {
    if Truthy(s.activeCategory) then s.activeCategory
    else if Truthy(s.previewCategory) then s.previewCategory
    else None
  }

  /** `updateCircles`, display part: a point is shown exactly when no
      category is in focus or it belongs to the focused one. */
  function CircleDisplay(s: State, category: string): (r: Display)
    ensures r == Block <==> Focus(s) == None || Focus(s) == Some(category)
  {
    if Truthy(s.activeCategory) then
      (if category == s.activeCategory.value then Block else Hidden)
    else if Truthy(s.previewCategory) then
      (if category == s.previewCategory.value then Block else Hidden)
    else Block
  }

  /** `updateCircles`, opacity part: 70 for everyone when nothing is in
      focus; otherwise the focused category stands out (60 or more) over the
      rest (10 or less). */
  function CircleOpacity(s: State, category: string): (r: nat)
    ensures r in {0, 10, 60, 70, 80}
    ensures r == 70 <==> Focus(s) == None
    ensures Focus(s) != None ==> (r >= 60 <==> Focus(s) == Some(category))
    ensures Truthy(s.activeCategory) ==>
      r == (if s.activeCategory == Some(category) then 80 else 0)
    ensures !Truthy(s.activeCategory) && Truthy(s.previewCategory) ==>
      r == (if s.previewCategory == Some(category) then 60 else 10)
  {
    if Truthy(s.activeCategory) then
      (if category == s.activeCategory.value then 80 else 0)
    else if Truthy(s.previewCategory) then
      (if category == s.previewCategory.value then 60 else 10)
    else 70
  }

  /** Legend row `mouseover` on category `hovered`, display part: the
      hovered category is always shown, and every point is shown when no
      category is active. */
  function HoverDisplay(s: State, hovered: string, category: string): (r: Display)
    ensures category == hovered ==> r == Block
    ensures !Truthy(s.activeCategory) ==> r == Block
    ensures Truthy(s.activeCategory) ==>
      (r == Block <==> s.activeCategory == Some(category) || category == hovered)
  {
    if !Truthy(s.activeCategory) then Block
    else if category == s.activeCategory.value || category == hovered then Block
    else Hidden
  }

  /** Legend row `mouseover` on category `hovered`, opacity part; the last
      case has no `return` in the handler.  The hovered category gets at
      least 50, the active one 80, and the opacity is unspecified only for
      points of neither when a category is active. */
  function HoverOpacity(s: State, hovered: string, category: string): (r: Opacity)
    ensures r.Percent? ==> r.p in {10, 50, 80}
    ensures category == hovered ==> r.Percent? && r.p >= 50
    ensures Truthy(s.activeCategory) && s.activeCategory == Some(category) ==> r == Percent(80)
    ensures r == Unstyled ==> Truthy(s.activeCategory) && category != hovered
    ensures !Truthy(s.activeCategory) && category != hovered ==> r == Percent(10)
    ensures !Truthy(s.activeCategory) && category == hovered ==> r == Percent(80)
    ensures Truthy(s.activeCategory) && s.activeCategory != Some(category) && category == hovered ==>
      r == Percent(50)
  {
    if !Truthy(s.activeCategory) then Percent(if category == hovered then 80 else 10)
    else if category == s.activeCategory.value then Percent(80)
    else if category == hovered then Percent(50)
    else Unstyled
  }

  /** Display after a legend `mouseout` or a legend click: `updateCircles`
      with the preview ignored. */
  function RestDisplay(s: State, category: string): (r: Display)
    ensures r == CircleDisplay(s.(previewCategory := None), category)
  {
    if !Truthy(s.activeCategory) || category == s.activeCategory.value then Block else Hidden
  }

  /** Opacity after a legend `mouseout`: 70 for shown points and 0 for
      hidden ones. */
  function RestOpacity(s: State, category: string): (r: nat)
    ensures r in {0, 70}
    ensures r == 70 <==> RestDisplay(s, category) == Block
  {
    if !Truthy(s.activeCategory) || category == s.activeCategory.value then 70 else 0
  }

  /** Display precedence, case by case (the `Focus` form is the contract of
      `CircleDisplay`): a truthy active category wins over any preview; a
      truthy preview filters when no category is active; otherwise every
      point is shown. */
  lemma DisplayPrecedence(s: State, category: string)
    ensures Truthy(s.activeCategory) ==>
      (CircleDisplay(s, category) == Block <==> s.activeCategory == Some(category))
    ensures !Truthy(s.activeCategory) && Truthy(s.previewCategory) ==>
      (CircleDisplay(s, category) == Block <==> s.previewCategory == Some(category))
    ensures !Truthy(s.activeCategory) && !Truthy(s.previewCategory) ==>
      CircleDisplay(s, category) == Block
  {
  }

  /** With a truthy active category the preview has no visible effect. */
  lemma PreviewIgnoredUnderActive(s: State, p: Option<string>, category: string)
    requires Truthy(s.activeCategory)
    ensures CircleDisplay(s.(previewCategory := p), category) == CircleDisplay(s, category)
    ensures CircleOpacity(s.(previewCategory := p), category) == CircleOpacity(s, category)
  {
  }

  /** Opacity agrees with display: shown points get at least 60, hidden ones
      at most 10, and under an active category every hidden point gets 0. */
  lemma OpacityFollowsDisplay(s: State, category: string)
    ensures CircleDisplay(s, category) == Block <==> CircleOpacity(s, category) >= 60
    ensures CircleDisplay(s, category) == Hidden ==> CircleOpacity(s, category) <= 10
    ensures Truthy(s.activeCategory) && CircleDisplay(s, category) == Hidden ==>
      CircleOpacity(s, category) == 0
    ensures CircleOpacity(s, category) in {0, 10, 60, 70, 80}
  {
  }

  /** The hover opacity is left unspecified exactly for the points the hover
      hides. */
  lemma HoverUnstyledOnlyWhenHidden(s: State, hovered: string, category: string)
    ensures HoverOpacity(s, hovered, category) == Unstyled <==>
      HoverDisplay(s, hovered, category) == Hidden
  {
  }

  /** Hovering only adds the hovered category to what is shown at rest, and
      lifts it above the unhovered points. */
  lemma HoverExtendsRest(s: State, hovered: string, category: string)
    ensures RestDisplay(s, category) == Block ==> HoverDisplay(s, hovered, category) == Block
    ensures HoverDisplay(s, hovered, category) == Block && RestDisplay(s, category) == Hidden ==>
      category == hovered
    ensures !Truthy(s.activeCategory) ==>
      (HoverOpacity(s, hovered, category) == Percent(80) <==> category == hovered)
  {
  }

  /** The rest rule is `updateCircles` without a preview, and it shows a
      point exactly when it gives it a nonzero opacity. */
  lemma RestIsUnpreviewed(s: State, category: string)
    ensures !Truthy(s.previewCategory) ==> RestDisplay(s, category) == CircleDisplay(s, category)
    ensures RestDisplay(s, category) == Block <==> RestOpacity(s, category) > 0
  {
  }
}

=== FILE: wrappers.dfy ===
/** The optional value the script keeps in its `let x = null` state variables:
    `None` stands for JavaScript's `null`. */
module Wrappers {

  datatype Option<+T> = None | Some(value: T)
}
